=== FILE: README.md ===
# A verified model of a small Rust ray tracer

This project models the core of a recursive ray tracer written in Rust
(Basti110/ray-tracing). The tracer keeps a scene graph of nodes (groups,
spheres, bounded planes, a camera and lights). It casts one primary ray per
pixel, finds the closest surface with a depth-first search of the graph,
traces a shadow ray towards the scene's light, and writes a colour or the
sky-blue background into the image.

The model is written over Dafny `real`s:

- **Geometry** holds vectors and column-major 4x4 matrices, as cgmath lays
  them out. `sqrt` and `normalize` are passed in as a `Numerics` record and
  stay uninterpreted. The only fact assumed about the primitives is
  `SqrtSound`: the root is non-negative and squares back to its argument.
  Nothing says `normalize` returns a unit vector, so the sphere lemmas that
  need a unit ray direction (`OnSphereIffRoot`, `AsWrittenNegatesFarRoot`,
  `CorrectedIsNearestHit`) take it as a hypothesis, and no lemma establishes
  it for the rays `CreatePrime` and `ShadowRay` build.
- **SceneItems** holds colours, rays, the `u8` casts and the pixel-to-sensor
  mapping of `Ray::create_prime`.
- **SphereGeometry** holds the sphere test, once as written and once
  corrected (see Findings). **PlaneGeometry** holds the bounded plane test.
- **Lights** holds the `Light` enum and its queries.
- **Nodes** holds every node kind as one tagged datatype, with the
  constructors, the child-list getters and `set_world_transform`.
  `DirectionalLight`, `SphericalLight` and the `Light` wrapper share one kind,
  because the wrapper forwards each node operation to its variant unchanged.
- **SceneGraph** holds the nodes in an arena (class `Arena`) addressed by
  index. `AddChild` and `SetWorldTransform` update the arena in place. Each is
  proved against a pure specification (`Attach`, `Nodes.SetWorldTransform`).
- **Rendering** holds `get_intersection_obj` as a recursive method with a
  loop. It also holds `get_color` and the `render` pixel loop. The search is
  proved equal to `Closest`, a functional reading of the same recursion.
  `Closest` is then proved to return the first nearest of the hits met in a
  post-order walk of the subtree.
- **Scenes** holds the `Scene` record and `add_root`.

The source never checks the graph for cycles. The search therefore takes a
ghost `rank` witness (`SceneGraph.Ranked`): every child ranks below its
parent. `AttachKeepsRanked` shows how attaching keeps such a witness valid.

Where the code departs from the usual textbook version of these steps, the
model follows the code:

- Attaching re-bases only the child itself. Its existing descendants are not
  re-baked. A `Node3D` or sphere parent does not re-base the child at all.
- A sphere's centre is the translation of its frame transform, not of a world
  transform.
- A spherical light's intensity divides by `4π·distance`, not by the squared
  distance.
- The shadow ray points along the negated direction towards the light. A
  point counts as lit when the blocker is strictly farther than the light.
- The colour returned is the hit object's own colour, clamped. It does not
  depend on the light. The scene holds one light, not a collection.
- Pixels, background included, are written with alpha 0.

## Model

| member | source | states |
|---|---|---|
| SceneItems.AsU8 | src/scene_items.rs:20-22 | a float cast to `u8` is 0 at or below 0, 255 at or above 255, and otherwise the integer part |
| SceneItems.ToRgba | src/scene_items.rs:19-24 | alpha is always 255 and each channel is the `u8` cast of the component |
| SceneItems.SensorX | src/scene_items.rs:35 | for a column inside the image the sensor coordinate lies strictly between -1 and 1 |
| SceneItems.SensorY | src/scene_items.rs:36 | for a row inside the image the sensor coordinate lies strictly between -1 and 1 |
| SceneItems.SensorXMirror | src/scene_items.rs:35 | columns `x` and `width-1-x` get negated sensor coordinates |
| SceneItems.SensorYDecreasing | src/scene_items.rs:36 | the vertical sensor coordinate strictly decreases as the row grows |
| SceneItems.CreatePrime | src/scene_items.rs:33-46 | a primary ray starts at the origin, along the normalised `(sensor_x, sensor_y, -1)` |
| SphereGeometry.IntersectAsWritten | src/sphere_node.rs:57-82 | as written: a miss exactly when `d2 > r²`; otherwise the smaller of the two roots `adj ∓ thc`, negative roots included |
| SphereGeometry.AsWrittenNegatesFarRoot | src/sphere_node.rs:59-77 | as written, the reported distance is minus the far root, and the hit point lies on the sphere at minus that distance |
| SphereGeometry.OnAxis | src/sphere_node.rs:57-82 | for a unit sphere at distance z down the ray, as written reports -(z+1), corrected reports z-1 |
| SphereGeometry.AsWrittenPrefersFartherSphere | src/sphere_node.rs:59-77 | of two spheres straight down the ray, as written the farther one reports the smaller distance; corrected orders them by true distance |
| SphereGeometry.IntersectCorrected | src/sphere_node.rs:57-82 | the corrected test never reports a negative distance, misses when `d2 > r²`, and its normal is taken at the reported point |
| SphereGeometry.OnSphereIffRoot | src/sphere_node.rs:60-71 | with a unit direction, the ray's points on the sphere are exactly those at `tca ∓ thc` |
| SphereGeometry.CorrectedRoot | src/sphere_node.rs:60-76 | corrected: nothing when the line misses or both roots are negative, else the near root if non-negative, else the far one |
| SphereGeometry.CorrectedIsNearestHit | src/sphere_node.rs:57-82 | corrected: the reported point lies on the sphere, and no point at a non-negative parameter on the sphere is nearer |
| PlaneGeometry.Normal | src/plane.rs:62-68 | the normal is the transposed rotation block times `(0,-1,0)`, the negated second row |
| PlaneGeometry.Intersect | src/plane.rs:61-84 | a hit needs `normal·direction > 1e-6`, a non-negative distance and every hit-point offset below 6 in magnitude; it reports the plane normal |
| PlaneGeometry.IntersectIff | src/plane.rs:69-80 | the test reports `t` exactly when the ray faces the plane, `t ≥ 0`, and the point at `t` is on the plane inside the square |
| PlaneGeometry.HitIsOnPlane | src/plane.rs:72-79 | a reported hit lies on the plane |
| Lights.LightColor | src/light.rs:35-40 | `color()` is the variant's colour |
| Lights.DirectionFrom | src/light.rs:42-47 | towards a directional light is `-direction`; towards a spherical one the normalised offset from the hit point to the light's translation (`DirectionalIgnoresHitPoint` adds that the former ignores the hit point) |
| Lights.Distance | src/light.rs:66-71 | infinite exactly for a directional light; for a spherical light the Euclidean distance to its translation (`DistanceZeroIff` says when it is zero) |
| Lights.Intensity | src/light.rs:56-64 | directional: the stored intensity; spherical: intensity times `4π·distance` gives back the stored intensity, undefined at distance 0 |
| Lights.Intersect | src/light.rs:49-54 | a directional light is never hit; a spherical light answers with its bulb test `SphericalIntersect` |
| Lights.DirectionalIgnoresHitPoint | src/light.rs:42-71 | for a directional light the direction towards it (`-direction`), the intensity (the stored one) and the distance (infinite) do not depend on the hit point |
| Lights.DistanceZeroIff | src/light.rs:69 | the Euclidean distance to the light is zero exactly at the light's position |
| Lights.SphericalUndefinedAtLight | src/light.rs:59-61 | the spherical intensity is undefined exactly at the light's position |
| Lights.SphericalFalloff | src/light.rs:59-61 | a farther point gets strictly less intensity from a positive light |
| Lights.SphericalIntersect | src/light.rs:162-182 | a hit needs the ray's line to pass within the 0.25 squared radius of the light; `SphericalIntersectIff` gives the exact condition |
| Lights.SphericalIntersectIff | src/light.rs:162-182 | the bulb test is true exactly when `d2 ≤ 0.25` and the far root is not negative |
| Lights.OriginInsideBulb | src/light.rs:162-182 | a ray starting inside the bulb always hits it |
| Nodes.NewNode3D | src/node_3d.rs:16-25 | no children, size 0, no parent, world == frame == the given transform |
| Nodes.EmptyNode3D | src/node_3d.rs:27-36 | unnamed, both transforms are the zero scale |
| Nodes.NewSphereNode | src/sphere_node.rs:18-28 | stores radius and colour, no children, size 0 |
| Nodes.NewPlane | src/plane.rs:19-31 | stores the colour, world == frame == transform, size 0 |
| Nodes.NewCameraNode | src/camera_node.rs:23-39 | world == frame == transform, plane point at the origin, plane width and height 0, size 0 |
| Nodes.NewDirectionalLight | src/light.rs:75-87 | stores direction, colour and intensity, size 0 |
| Nodes.OffLight | src/light.rs:89-101 | named "empty", intensity 0, black, direction (0,0,1), translation (0,0,-5) |
| Nodes.NewSphericalLight | src/light.rs:149-160 | stores colour and intensity, size 0 |
| Nodes.GetParent | src/node_3d.rs:40-47 | the stored parent link; `SceneGraph.AttachKeepsValid` proves it stays empty in every arena built by `add_child` |
| Nodes.GetWorldTransform | src/node_3d.rs:73-75 | the stored world transform, which `SetWorldTransform` and `SceneGraph.AttachRebasesChild` describe |
| Nodes.GetChild | src/node_3d.rs:49-54 | nothing exactly at or beyond the size counter, else the stored child; every kind's `get_child` is the same (src/sphere_node.rs:41-46, src/camera_node.rs:51-56) |
| Nodes.GetSize | src/node_3d.rs:61-63 | the size counter equals the number of children |
| Nodes.RebaseKeepsChildren | src/plane.rs:51-55 | re-basing keeps the child list, so growing the parent's child list and re-basing commute |
| Nodes.WithChild | src/node_3d.rs:56-59 | size grows by one, the new child sits at the old size, earlier children keep their places |
| Nodes.SetWorldTransform | src/plane.rs:94-125 | a plane stores `t * frame` and only its world transform changes; cameras and lights do the same (src/camera_node.rs:80-82, src/light.rs:143-145), a `Node3D` takes `t` unchanged (src/node_3d.rs:77-79) |
| Nodes.Intersect | src/plane.rs:61-84 | a plane is hit as its world-transform test says, a sphere as the corrected sphere test says, never at a negative distance; a `Node3D`, camera or light node is never hit (src/node_3d.rs:65-67, src/camera_node.rs:68-70, src/light.rs:258-263) |
| Nodes.ColorOf | src/node_3d.rs:69-71 | a `Node3D` and a camera are black, a sphere or plane has its stored colour, a light node its light's colour (also src/camera_node.rs:72-74, src/sphere_node.rs:84-86, src/light.rs:265-270) |
| SceneGraph.Attach | src/plane.rs:51-55 | `add_child` allocates no node: the arena keeps its length |
| SceneGraph.Arena.AddChild | src/camera_node.rs:58-62 | `add_child` changes the arena exactly as `Attach` says (the parent's child list grows, a re-basing parent re-bases the child) and keeps it linked and parent-free |
| SceneGraph.Arena.SetWorldTransform | src/plane.rs:94-113 | only node `i` changes, as `Nodes.SetWorldTransform` says |
| SceneGraph.AttachKeepsValid | src/node_3d.rs:56-59 | attaching keeps every counter equal to its child count, every child index in the arena, and every parent link empty |
| SceneGraph.AttachGrowsParent | src/sphere_node.rs:48-51 | the parent's size grows by one, the new child is at the old size, earlier children are unchanged |
| SceneGraph.AttachToGroupKeepsChild | src/node_3d.rs:56-59 | a `Node3D` or sphere parent leaves the child untouched |
| SceneGraph.AttachRebasesChild | src/light.rs:121-125 | a plane, camera or light parent gives the child `parent.world * child.frame`, or `parent.world` for a `Node3D` child; nothing else changes |
| SceneGraph.AttachIsOneLevel | src/plane.rs:53 | all nodes except the parent and the child, grandchildren included, are unchanged |
| SceneGraph.AttachKeepsRanked | src/render_system.rs:57-64 | attaching a lower-ranked child keeps the graph acyclic |
| Rendering.OwnHit | src/render_system.rs:84-95 | a node's own candidate names that node, exists exactly when its test reports a hit, and carries that test's distance and normal |
| Rendering.TakeChild | src/render_system.rs:64-81 | a child's result replaces the current best when there is none yet or it is strictly closer; otherwise the current best stays |
| Rendering.Step | src/render_system.rs:89-95 | the result is the current best or the candidate |
| Rendering.Closest | src/render_system.rs:52-97 | any result names a node of the arena, below `f64::MAX` |
| Rendering.ChildrenBest | src/render_system.rs:57-82 | the loop's running best after `k` children names a node, below `f64::MAX` |
| Rendering.GetIntersectionObj | src/render_system.rs:52-97 | the imperative search returns exactly `Closest` |
| Rendering.VisitOrder | src/render_system.rs:57-89 | the walk ends with the node itself and visits only arena nodes |
| Rendering.FirstNearestIsFirstNearest | src/render_system.rs:68-79 | the strict-`<` scan returns nothing iff no candidate is below `f64::MAX`; otherwise the earliest candidate of smallest distance |
| Rendering.FirstNearestUnique | src/render_system.rs:68-79 | that description fixes the result uniquely |
| Rendering.PickAppend | src/render_system.rs:57-82 | scanning a concatenation is scanning the second part from the first part's result |
| Rendering.PickFromCurrent | src/render_system.rs:64-81 | merging a child's result is the same as continuing the scan into the child's candidates |
| Rendering.ClosestIsFirstNearest | src/render_system.rs:52-97 | the search equals the first nearest over the post-order walk |
| Rendering.ChildrenBestIsFirstNearest | src/render_system.rs:57-82 | after `k` children, the best so far equals the first nearest over those children's subtrees |
| Rendering.SearchFindsFirstNearest | src/render_system.rs:52-97 | none iff no node in the subtree has a hit below `f64::MAX`; else a minimal hit, ties to the earliest visited, own hit last |
| Rendering.ShadePoint | src/render_system.rs:100 | the shade point lies on the ray 0.01 direction-lengths before the hit point |
| Rendering.LightPower | src/render_system.rs:103-107 | the light power exists iff the intensity does, and is non-negative for non-negative intensity |
| Rendering.Lit | src/render_system.rs:120-121 | lit whenever the shadow search finds nothing; with a directional light, lit iff the shadow search finds nothing; with a finite distance and an obstacle, iff the obstacle is strictly farther |
| Rendering.InLight | src/render_system.rs:118-121 | `get_color`'s shadow test; for a directional light it holds iff the search along `ShadowRay` finds nothing (`LitIffNoOccluder` gives the general case) |
| Rendering.ShadowRay | src/render_system.rs:100-116 | the shadow ray starts 0.01 short of the hit along the primary ray and points along the negated normalised direction towards the light |
| Rendering.GetColor | src/render_system.rs:99-129 | the colour is the hit object's own colour, clamped, whatever the light; the `in_light` it computes is the search along `ShadowRay` compared with the light's distance from the shade point |
| Rendering.LitIffAllBeyond | src/render_system.rs:120-121 | with the first nearest hit as the obstacle, `in_light` holds iff every candidate below `f64::MAX` lies strictly beyond the light |
| Rendering.LitIffNoOccluder | src/render_system.rs:100-121 | `get_color`'s shade point is lit iff every hit on its shadow ray below `f64::MAX` is strictly beyond `lights.distance(hit_point)`; for a directional light iff there is none |
| Rendering.AsU32 | src/render_system.rs:16-17 | the image size is the camera size modulo 2^32 |
| Rendering.PixelAt | src/render_system.rs:25-41 | every pixel has alpha 0, and a pixel whose primary ray hits nothing is the background (`PixelIsFirstNearest` gives the rest) |
| Rendering.Render | src/render_system.rs:15-45 | every pixel inside the image is written, with the first nearest object's colour or the background |
| Rendering.PixelIsFirstNearest | src/render_system.rs:21-41 | a pixel with no hit below `f64::MAX` is (135, 206, 255, 0); otherwise it has the clamped colour of the first nearest object |
| Scenes.Scene.constructor | src/scene.rs:22-30 | stores root and name, not the camera; the light is `off_light`, the output path "output.png" |
| Scenes.Scene.AddRoot | src/scene.rs:32-34 | only the root changes |
| Scenes.Scene.GetRenderer | src/scene.rs:40-42 | returns the stored renderer, whose output path is "output.png" |
| Scenes.OffLightIsDark | src/scene.rs:27 | a new scene's light has intensity 0 everywhere, is black, lies along -z and is infinitely far |

## Left out

- Writing the PNG file and creating the image buffer are left out. `render`
  returns its pixels as an array instead.
- `println!` output is left out, including the matrix dumps in
  `Plane::set_world_transform`.
- `Rc`, `RefCell` and `Weak` are replaced by arena indices.
- The `value!` macro and `utils` are not part of this model.
- `src/main.rs` is left out. It only assembles one scene and calls `render`.
- `src/node.rs` is left out. Its trait does not match the implementations,
  so the model follows the implementations.
- IEEE floating point is left out: f32/f64 rounding, the f64-to-f32 casts and
  the rounding of `f32::consts::PI`. `sqrt` and `normalize` are parameters.
  `Color::clamp` and `Color::red`/`green`/`blue` are not in the modelled files,
  so they are parameters too (`Palette`).
- `Nodes.SetWorldTransform`: the inverse matrix in `Plane::set_world_transform`
  is not computed, because it is only printed. The panic of its `unwrap` on a
  singular rotation block is kept as a precondition (`CanRebase`).
- `SceneGraph.Arena.AddChild` requires that a plane, camera or light parent is
  not its own child, because the mutable borrow of the parent makes that call
  panic.
- A sphere has no `set_world_transform` and no world transform in the source.
  The model keeps its world transform equal to its frame and leaves a sphere
  child unchanged when a parent re-bases it.
- `Nodes.Intersect`: for spheres it uses the corrected test, not the code as
  written (see Findings). The as-written test is modelled separately.
- `usize` overflow of the size counters is not modelled. Sizes are unbounded.
- The search needs an acyclic graph, witnessed by a ghost rank. On a cyclic
  graph the source recursion does not terminate; that case is not modelled.
- `Rendering.GetColor` computes the light power and the shadow test as the
  source does, then discards them. The shadow test is returned as a ghost
  result so that it can be stated; the light power is not returned at all.

## Findings

| source | as written | input that shows it | evidently intended | confidence | as-written member | corrected member |
|---|---|---|---|---|---|---|
| src/sphere_node.rs:59,76-77 | the offset is `origin - centre`, so `adj` is minus the usual `tca`; the smaller root is then minus the far root, and the rejection of roots behind the origin is commented out | ray from (0,0,0) along (0,0,-1), unit spheres centred at (0,0,-5) and (0,0,-10): as written the distances are -6 and -11, so the closest-hit search picks the farther sphere | offset `centre - origin`, reject both roots behind the origin, report the nearest non-negative root: distances 4 and 9 | medium, not executed | SphereGeometry.AsWrittenPrefersFartherSphere | SphereGeometry.CorrectedIsNearestHit |

=== FILE: geometry.dfy ===
/** Vectors and 4x4 matrices over the reals, laid out as the cgmath crate lays them
    out (a matrix is its four columns), plus the numeric primitives the renderer
    takes from that crate and leaves uninterpreted here. */
module Geometry {

  datatype Option<+T> = None | Some(value: T)

  datatype Vec3 = Vec3(x: real, y: real, z: real)

  datatype Vec4 = Vec4(x: real, y: real, z: real, w: real)

  /** A 4x4 matrix given by its columns x, y, z, w (w holds the translation). */
  datatype Mat4 = Mat4(x: Vec4, y: Vec4, z: Vec4, w: Vec4)

  /** `sqrt` of f64 and `normalize` of cgmath, kept uninterpreted. */
  datatype Numerics = Numerics(sqrt: real -> real, normalize: Vec3 -> Vec3)

  /** `x.sqrt()` under the given primitives. */
  function Sqrt(m: Numerics, x: real): real {
    m.sqrt(x)
  }

  /** `v.normalize()` under the given primitives. */
  function Normalize(m: Numerics, v: Vec3): Vec3 {
    m.normalize(v)
  }

  /** The only facts about `sqrt` that the proofs rely on. */
  ghost predicate SqrtSound(m: Numerics) {
    forall x :: 0.0 <= x ==> 0.0 <= Sqrt(m, x) && Sqrt(m, x) * Sqrt(m, x) == x
  }

  const Origin: Vec3 := Vec3(0.0, 0.0, 0.0)

  function Add(a: Vec3, b: Vec3): Vec3 {
    Vec3(a.x + b.x, a.y + b.y, a.z + b.z)
  }

  function Sub(a: Vec3, b: Vec3): Vec3 {
    Vec3(a.x - b.x, a.y - b.y, a.z - b.z)
  }

  function Neg(a: Vec3): Vec3 {
    Vec3(-a.x, -a.y, -a.z)
  }

  function Scale(a: Vec3, s: real): Vec3 {
    Vec3(a.x * s, a.y * s, a.z * s)
  }

  function Dot(a: Vec3, b: Vec3): real {
    a.x * b.x + a.y * b.y + a.z * b.z
  }

  /** cgmath's `Vector4::truncate`: drop the w component. */
  function Truncate(v: Vec4): Vec3 {
    Vec3(v.x, v.y, v.z)
  }

  /** The translation part of a transform: its w column, truncated. */
  function Translation(m: Mat4): Vec3 {
    Truncate(m.w)
  }

  /** Matrix times column vector. */
  function Apply(m: Mat4, v: Vec4): Vec4 {
    Vec4(m.x.x * v.x + m.y.x * v.y + m.z.x * v.z + m.w.x * v.w,
         m.x.y * v.x + m.y.y * v.y + m.z.y * v.z + m.w.y * v.w,
         m.x.z * v.x + m.y.z * v.y + m.z.z * v.z + m.w.z * v.w,
         m.x.w * v.x + m.y.w * v.y + m.z.w * v.z + m.w.w * v.w)
  }

  /** Matrix product `a * b`: column j of the product is `a` applied to column j of `b`. */
  function Mul(a: Mat4, b: Mat4): Mat4 {
    Mat4(Apply(a, b.x), Apply(a, b.y), Apply(a, b.z), Apply(a, b.w))
  }

  function Identity(): Mat4 {
    Mat4(Vec4(1.0, 0.0, 0.0, 0.0), Vec4(0.0, 1.0, 0.0, 0.0),
         Vec4(0.0, 0.0, 1.0, 0.0), Vec4(0.0, 0.0, 0.0, 1.0))
  }

  /** `Matrix4::from_translation(v)`. */
  function FromTranslation(v: Vec3): Mat4 {
    Identity().(w := Vec4(v.x, v.y, v.z, 1.0))
  }

  /** `Matrix4::from_scale(s)`: a uniform scale of the three axes, w kept at 1. */
  function FromScale(s: real): Mat4 {
    Mat4(Vec4(s, 0.0, 0.0, 0.0), Vec4(0.0, s, 0.0, 0.0),
         Vec4(0.0, 0.0, s, 0.0), Vec4(0.0, 0.0, 0.0, 1.0))
  }

  /** The transpose of the upper 3x3 block of `m`, applied to `v`: row i of the
      transpose is column i of `m`, so component i is that column dotted with `v`. */
  function TransposeApply(m: Mat4, v: Vec3): Vec3 {
    Vec3(Dot(Truncate(m.x), v), Dot(Truncate(m.y), v), Dot(Truncate(m.z), v))
  }

  function Abs(x: real): real {
    if x < 0.0 then -x else x
  }

  /** Determinant of the upper 3x3 block of `m` (the block without translation). */
  function Det3(m: Mat4): real {
    var a, b, c := Truncate(m.x), Truncate(m.y), Truncate(m.z);
    a.x * (b.y * c.z - b.z * c.y) - b.x * (a.y * c.z - a.z * c.y) + c.x * (a.y * b.z - a.z * b.y)
  }

  /** Swapping the operands of a difference negates its dot product with any
      vector and leaves its squared length unchanged. */
  lemma SubSwap(a: Vec3, b: Vec3, d: Vec3)
    ensures Dot(Sub(a, b), d) == -Dot(Sub(b, a), d)
    ensures Dot(Sub(a, b), Sub(a, b)) == Dot(Sub(b, a), Sub(b, a))
  {
  }

}

=== FILE: lights.dfy ===
/** The `Light` enum of src/light.rs and its per-variant queries. A light's
    position is the translation of its node's world transform, so the queries
    take that transform alongside the light. */
module Lights {
  import opened Geometry
  import opened SceneItems
  import SphereGeometry

  /** A directional light shines along `direction` from infinitely far away; a
      spherical light sits at the translation of its world transform. The
      intensities are f32 in the source. */
  datatype Light =
    | Directional(direction: Vec3, color: Color, intensity: real)
    | Spherical(color: Color, intensity: real)

  /** A distance to a light: finite, or the f64 infinity of a directional light. */
  datatype Reach = Finite(value: real) | Infinite

  /** `std::f32::consts::PI`, written to the precision of its literal. */
  const Pi: real := 3.14159265358979323846

  /** The squared radius of the ball a spherical light occupies for ray tests. */
  const BulbRadius2: real := 0.25

  /** `Light::color`: a copy of the variant's colour. */
  function LightColor(l: Light): (c: Color)
    ensures c == l.color
  {
    match l
    case Directional(_, color, _) => Color(color.red, color.green, color.blue)
    case Spherical(color, _) => Color(color.red, color.green, color.blue)
  }

  /** `Light::direction_from`: the direction from the hit point towards the light. */
  function DirectionFrom(m: Numerics, l: Light, world: Mat4, hitPoint: Vec3): (d: Vec3)
    ensures l.Directional? ==> d == Neg(l.direction)
    ensures l.Spherical? ==> d == Normalize(m, Sub(Translation(world), hitPoint))
  {
    match l
    case Directional(direction, _, _) => Neg(direction)
    case Spherical(_, _) => Normalize(m, Sub(Translation(world), hitPoint))
  }

  /** Euclidean distance from the light's position to `p` (`Point3::distance`). */
  function DistanceTo(m: Numerics, world: Mat4, p: Vec3): real {
    var d := Sub(Translation(world), p);
    Sqrt(m, Dot(d, d))
  }

  /** `Light::distance`. */
  function Distance(m: Numerics, l: Light, world: Mat4, hitPoint: Vec3): (r: Reach)
    ensures l.Directional? <==> r.Infinite?
    ensures l.Spherical? ==> r == Finite(DistanceTo(m, world, hitPoint))
  {
    match l
    case Directional(_, _, _) => Infinite
    case Spherical(_, _) => Finite(DistanceTo(m, world, hitPoint))
  }

  /** `Light::intensity`. A spherical light divides by `4 * PI * distance`, the
      distance NOT squared; at distance zero the f32 quotient is not finite,
      which is `None` here. */
  function Intensity(m: Numerics, l: Light, world: Mat4, hitPoint: Vec3): (r: Option<real>)
    ensures l.Directional? ==> r == Some(l.intensity)
    ensures l.Spherical? ==>
      var d := DistanceTo(m, world, hitPoint);
      (r.None? <==> d == 0.0) && (r.Some? ==> r.value * (4.0 * Pi * d) == l.intensity)
  {
    match l
    case Directional(_, _, intensity) => Some(intensity)
    case Spherical(_, intensity) =>
      var r2 := DistanceTo(m, world, hitPoint);
      if r2 == 0.0 then None else Some(intensity / (4.0 * Pi * r2))
  }

  /** `SphericalLight::intersect`: does the ray meet the ball of squared radius
      0.25 around the light at a parameter that is not behind its origin? */
  function SphericalIntersect(m: Numerics, world: Mat4, ray: Ray): (b: bool)
    ensures b ==> SphereGeometry.Miss2(ray, Translation(world)) <= BulbRadius2
  {
    var center := Translation(world);
    var adj := SphereGeometry.Tca(ray, center);
    var d2 := SphereGeometry.Miss2(ray, center);
    if d2 > BulbRadius2 then false
    else
      var thc := Sqrt(m, BulbRadius2 - d2);
      var t0 := adj - thc;
      var t1 := adj + thc;
      if t0 < 0.0 && t1 < 0.0 then false
      else true
  }

  /** `Light::intersect`: a directional light is never hit. */
  function Intersect(m: Numerics, l: Light, world: Mat4, ray: Ray): (b: bool)
    ensures l.Directional? ==> !b
    ensures l.Spherical? ==> b == SphericalIntersect(m, world, ray)
  {
    match l
    case Directional(_, _, _) => false
    case Spherical(_, _) => SphericalIntersect(m, world, ray)
  }

  /** A directional light looks the same from every hit point: the direction
      towards it, its intensity and its (infinite) distance do not depend on
      where the surface was hit. */
  lemma DirectionalIgnoresHitPoint(m: Numerics, l: Light, world: Mat4, p: Vec3, q: Vec3)
    requires l.Directional?
    ensures DirectionFrom(m, l, world, p) == DirectionFrom(m, l, world, q) == Neg(l.direction)
    ensures Intensity(m, l, world, p) == Intensity(m, l, world, q) == Some(l.intensity)
    ensures Distance(m, l, world, p) == Distance(m, l, world, q) == Infinite
  {
  }

  /** With a sound `sqrt`, the distance to a light's position is zero exactly at
      that position. */
  lemma {:induction false} DistanceZeroIff(m: Numerics, world: Mat4, p: Vec3)
    requires SqrtSound(m)
    ensures DistanceTo(m, world, p) == 0.0 <==> p == Translation(world)
  {
    var dp := Sub(Translation(world), p);
    var sp := DistanceTo(m, world, p);
    assert sp * sp == Dot(dp, dp);
    if sp == 0.0 {
      SquareZero(dp);
    } else {
      ZeroSquare(sp);
    }
  }

  /** Hence a spherical light's intensity is undefined at its own position and
      only there. */
  lemma SphericalUndefinedAtLight(m: Numerics, l: Light, world: Mat4, p: Vec3)
    requires SqrtSound(m) && l.Spherical?
    ensures Intensity(m, l, world, p).None? <==> p == Translation(world)
  {
    DistanceZeroIff(m, world, p);
  }

  /** Points farther from a spherical light of positive intensity receive
      strictly less light. */
  lemma SphericalFalloff(m: Numerics, l: Light, world: Mat4, p: Vec3, q: Vec3)
    requires l.Spherical? && 0.0 < l.intensity
    requires 0.0 < DistanceTo(m, world, p) < DistanceTo(m, world, q)
    ensures Intensity(m, l, world, q).value < Intensity(m, l, world, p).value
  {
    var k := 4.0 * Pi;
    InverseDecreasing(l.intensity, k * DistanceTo(m, world, p), k * DistanceTo(m, world, q));
  }

  lemma SquareZero(d: Vec3)
    requires Dot(d, d) == 0.0
    ensures d == Vec3(0.0, 0.0, 0.0)
  {
    var xx, yy, zz := d.x * d.x, d.y * d.y, d.z * d.z;
    assert 0.0 <= xx && 0.0 <= yy && 0.0 <= zz;
    assert xx == 0.0 && yy == 0.0 && zz == 0.0;
    ZeroSquare(d.x);
    ZeroSquare(d.y);
    ZeroSquare(d.z);
  }

  lemma ZeroSquare(a: real)
    ensures a * a == 0.0 <==> a == 0.0
  {
    if 0.0 < a {
      SquareStrict(0.0, a);
    } else if a < 0.0 {
      SquareStrict(0.0, -a);
    }
  }

  lemma SquareStrict(y: real, x: real)
    requires 0.0 <= y < x
    ensures y * y < x * x
  {
    var a, b, c := y * y, y * x, x * x;
    assert a <= b;
    assert b < c;
  }

  lemma InverseDecreasing(a: real, u: real, v: real)
    requires 0.0 < a && 0.0 < u < v
    ensures a / v < a / u
  {
    var qu, qv := a / u, a / v;
    if qu <= qv {
      assert false;
    }
  }

  lemma RootDominates(a: real, s: real)
    requires 0.0 <= s && a * a <= s * s
    ensures 0.0 <= a + s
  {
    if a + s < 0.0 {
      SquareStrict(s, -a);
      assert false;
    }
  }

  /** With a sound `sqrt`, the spherical light's test is true exactly when the
      ray's line meets the ball and the far crossing is not behind the origin. */
  lemma SphericalIntersectIff(m: Numerics, world: Mat4, ray: Ray)
    requires SqrtSound(m)
    ensures var c := Translation(world);
      SphericalIntersect(m, world, ray) <==>
        SphereGeometry.Miss2(ray, c) <= BulbRadius2 &&
        0.0 <= SphereGeometry.Tca(ray, c) + Sqrt(m, BulbRadius2 - SphereGeometry.Miss2(ray, c))
  {
    var c := Translation(world);
    var d2 := SphereGeometry.Miss2(ray, c);
    if d2 <= BulbRadius2 {
      assert 0.0 <= Sqrt(m, BulbRadius2 - d2);
    }
  }

  /** A ray that starts inside the light's ball always meets it, whatever its
      direction. */
  lemma {:induction false} OriginInsideBulb(m: Numerics, world: Mat4, ray: Ray)
    requires SqrtSound(m)
    requires var l := Sub(Translation(world), ray.origin); Dot(l, l) <= BulbRadius2
    ensures SphericalIntersect(m, world, ray)
  {
    var c := Translation(world);
    var l := Sub(c, ray.origin);
    var adj := SphereGeometry.Tca(ray, c);
    var d2 := SphereGeometry.Miss2(ray, c);
    assert d2 == Dot(l, l) - adj * adj;
    assert adj * adj >= 0.0;
    var e := BulbRadius2 - d2;
    var thc := Sqrt(m, e);
    assert thc * thc == e && 0.0 <= thc;
    RootDominates(adj, thc);
    SphericalIntersectIff(m, world, ray);
  }
}

=== FILE: nodes.dfy ===
/** The scene-graph node kinds (src/node_3d.rs, src/sphere_node.rs, src/plane.rs,
    src/camera_node.rs, src/light.rs). Every kind repeats the same state: a name,
    a frame and a world transform, a child list with a separate size counter and a
    parent link; nodes refer to their children by index into an arena (see
    SceneGraph). The `Light` enum forwards every node operation to the variant it
    wraps, and both variants behave alike, so all lights share one kind here. */
module Nodes {
  import opened Geometry
  import opened SceneItems
  import Lights
  import SphereGeometry
  import PlaneGeometry

  datatype Kind =
    | Node3D
    | SphereNode(radius: real, color: Color)
    | PlaneNode(color: Color)
    | CameraNode(viewingDirection: Vec3, planePoint: Vec3, imageWidth: nat, imageHeight: nat,
                 planeWidth: real, planeHeight: real)
    | LightNode(light: Lights.Light)

  /** A sphere has no world transform of its own in the source; here its `world`
      stays equal to its frame. `parent` is the `Weak` link, which no operation
      ever sets. */
  datatype Node = Node(name: string, frame: Mat4, world: Mat4, childs: seq<nat>, size: nat,
                       parent: Option<nat>, kind: Kind)

  /** The size counter agrees with the length of the child list. */
  predicate Consistent(n: Node) {
    n.size == |n.childs|
  }

  /** What every constructor produces: no children, size zero, no parent, and
      the given transform as both frame and world transform. */
  predicate Fresh(n: Node, transform: Mat4) {
    n.frame == transform && n.world == transform && n.childs == [] && n.size == 0 && n.parent.None?
  }

  function NewNode3D(name: string, transform: Mat4): (n: Node)
    ensures Fresh(n, transform) && Consistent(n) && n.name == name && n.kind == Node3D
  {
    Node(name, transform, transform, [], 0, None, Node3D)
  }

  /** `Node3D::empty`: an unnamed node whose transform scales everything to zero. */
  function EmptyNode3D(): (n: Node)
    ensures Fresh(n, FromScale(0.0)) && Consistent(n) && n.name == "" && n.kind == Node3D
  {
    Node("", FromScale(0.0), FromScale(0.0), [], 0, None, Node3D)
  }

  function NewSphereNode(name: string, transform: Mat4, radius: real, color: Color): (n: Node)
    ensures Fresh(n, transform) && Consistent(n) && n.name == name
    ensures n.kind == SphereNode(radius, color)
  {
    Node(name, transform, transform, [], 0, None, SphereNode(radius, color))
  }

  function NewPlane(name: string, transform: Mat4, color: Color): (n: Node)
    ensures Fresh(n, transform) && Consistent(n) && n.name == name && n.kind == PlaneNode(color)
  {
    Node(name, transform, transform, [], 0, None, PlaneNode(color))
  }

  /** `CameraNode::new`: the plane point starts at the origin and the plane
      width and height at zero. */
  function NewCameraNode(name: string, transform: Mat4, direction: Vec3, width: nat, height: nat): (n: Node)
    ensures Fresh(n, transform) && Consistent(n) && n.name == name
    ensures n.kind == CameraNode(direction, Origin, width, height, 0.0, 0.0)
  {
    Node(name, transform, transform, [], 0, None, CameraNode(direction, Vec3(0.0, 0.0, 0.0), width, height, 0.0, 0.0))
  }

  function NewDirectionalLight(name: string, transform: Mat4, direction: Vec3, color: Color, intensity: real): (n: Node)
    ensures Fresh(n, transform) && Consistent(n) && n.name == name
    ensures n.kind == LightNode(Lights.Directional(direction, color, intensity))
  {
    Node(name, transform, transform, [], 0, None, LightNode(Lights.Directional(direction, color, intensity)))
  }

  /** `DirectionalLight::off_light`: a black light of zero intensity named
      "empty", shining along +z from a translation of (0, 0, -5). */
  function OffLight(): (n: Node)
    ensures Fresh(n, FromTranslation(Vec3(0.0, 0.0, -5.0))) && Consistent(n) && n.name == "empty"
    ensures n.kind.LightNode? && n.kind.light.Directional?
    ensures n.kind.light.intensity == 0.0 && n.kind.light.color == Color(0.0, 0.0, 0.0)
    ensures n.kind.light.direction == Vec3(0.0, 0.0, 1.0)
  {
    var t := FromTranslation(Vec3(0.0, 0.0, -5.0));
    Node("empty", t, t, [], 0, None, LightNode(Lights.Directional(Vec3(0.0, 0.0, 1.0), Color(0.0, 0.0, 0.0), 0.0)))
  }

  function NewSphericalLight(name: string, transform: Mat4, color: Color, intensity: real): (n: Node)
    ensures Fresh(n, transform) && Consistent(n) && n.name == name
    ensures n.kind == LightNode(Lights.Spherical(color, intensity))
  {
    Node(name, transform, transform, [], 0, None, LightNode(Lights.Spherical(color, intensity)))
  }

  /** `get_child`: the child at `index`, or nothing at or beyond the size counter. */
  function GetChild(n: Node, index: nat): (r: Option<nat>)
    requires Consistent(n)
    ensures r.None? <==> n.size <= index
    ensures r.Some? ==> r.value == n.childs[index]
  {
    if index >= n.size then None else Some(n.childs[index])
  }

  /** `get_size`: the size counter, which is the number of children. */
  function GetSize(n: Node): (s: nat)
    requires Consistent(n)
    ensures s == |n.childs|
  {
    n.size
  }

  /** `get_parent`: the parent link, which no operation ever sets. */
  function GetParent(n: Node): (r: Option<nat>)
    ensures r == n.parent
  {
    n.parent
  }

  /** `get_world_transform`. */
  function GetWorldTransform(n: Node): (t: Mat4)
    ensures t == n.world
  {
    n.world
  }

  /** The node's own part of `add_child`: the counter goes up by one and the
      child index is appended. */
  function WithChild(n: Node, child: nat): (r: Node)
    requires Consistent(n)
    ensures Consistent(r) && r.size == n.size + 1
    ensures GetChild(r, n.size) == Some(child)
    ensures forall i :: 0 <= i < n.size ==> GetChild(r, i) == GetChild(n, i)
    ensures forall i :: n.size < i ==> GetChild(r, i).None?
    ensures r.(childs := n.childs, size := n.size) == n
  {
    n.(size := n.size + 1, childs := n.childs + [child])
  }

  /** The kinds whose `add_child` re-bases the child on their own world
      transform; a `Node3D` or a sphere leaves the child untouched. */
  predicate PropagatesTransform(k: Kind) {
    k.PlaneNode? || k.CameraNode? || k.LightNode?
  }

  /** `Plane::set_world_transform` inverts the transposed upper 3x3 block of its
      new world transform and unwraps the result, so it panics on a singular one. */
  predicate CanRebase(n: Node, t: Mat4) {
    n.kind.PlaneNode? ==> Det3(Mul(t, n.frame)) != 0.0
  }

  /** `set_world_transform(t)`. A `Node3D` takes `t` as it is; planes, cameras
      and lights compose it with their frame (`t * frame`); a sphere has no such
      operation and is left as it is. */
  function SetWorldTransform(n: Node, t: Mat4): (r: Node)
    requires CanRebase(n, t)
    ensures r.(world := n.world) == n
    ensures n.kind.Node3D? ==> r.world == t
    ensures PropagatesTransform(n.kind) ==> r.world == Mul(t, n.frame)
    ensures n.kind.SphereNode? ==> r == n
  {
    match n.kind
    case Node3D => n.(world := t)
    case SphereNode(_, _) => n
    case PlaneNode(_) => n.(world := Mul(t, n.frame))
    case CameraNode(_, _, _, _, _, _) => n.(world := Mul(t, n.frame))
    case LightNode(_) => n.(world := Mul(t, n.frame))
  }

  /** A node's own intersection test. Only spheres and planes have geometry; the
      sphere uses the corrected test of SphereGeometry (see the README's
      findings), centred on its frame translation, the plane its world
      transform. */
  function Intersect(m: Numerics, n: Node, ray: Ray): (r: Option<SurfaceHit>)
    ensures !(n.kind.SphereNode? || n.kind.PlaneNode?) ==> r.None?
    ensures r.Some? ==> 0.0 <= r.value.distance
    ensures n.kind.PlaneNode? ==> r == PlaneGeometry.Intersect(n.world, ray)
    ensures n.kind.SphereNode? ==> r == SphereGeometry.IntersectCorrected(m, n.kind.radius, n.frame, ray)
  {
    match n.kind
    case Node3D => None
    case SphereNode(radius, _) => SphereGeometry.IntersectCorrected(m, radius, n.frame, ray)
    case PlaneNode(_) => PlaneGeometry.Intersect(n.world, ray)
    case CameraNode(_, _, _, _, _, _) => None
    case LightNode(_) => None
  }

  /** `get_color`: black for a `Node3D` and a camera, otherwise the stored colour
      (a light's own colour for a light). */
  function ColorOf(n: Node): (c: Color)
    ensures (n.kind.Node3D? || n.kind.CameraNode?) ==> c == Color(0.0, 0.0, 0.0)
    ensures n.kind.SphereNode? || n.kind.PlaneNode? ==> c == n.kind.color
    ensures n.kind.LightNode? ==> c == Lights.LightColor(n.kind.light)
  {
    match n.kind
    case Node3D => Color(0.0, 0.0, 0.0)
    case SphereNode(_, color) => color
    case PlaneNode(color) => color
    case CameraNode(_, _, _, _, _, _) => Color(0.0, 0.0, 0.0)
    case LightNode(l) => l.color
  }

  /** Re-basing never touches the child list, so it commutes with adding a child. */
  lemma RebaseKeepsChildren(n: Node, t: Mat4, c: nat)
    requires Consistent(n) && CanRebase(n, t)
    ensures Consistent(SetWorldTransform(n, t))
    ensures forall i :: GetChild(SetWorldTransform(n, t), i) == GetChild(n, i)
    ensures SetWorldTransform(WithChild(n, c), t) == WithChild(SetWorldTransform(n, t), c)
  {
  }
}

=== FILE: plane_geometry.dfy ===
/** Ray/plane intersection of `Plane::intersect` (src/plane.rs:61-84): a bounded
    square patch of the plane through the translation of the world transform. */
module PlaneGeometry {
  import opened Geometry
  import opened SceneItems

  /** The facing test only accepts rays whose direction has a dot product with
      the normal above this threshold (`1e-6`). */
  const FacingEpsilon: real := 0.000001

  /** Half the side of the square patch: every coordinate of the hit point, taken
      relative to the plane's origin, must be strictly below this in magnitude. */
  const HalfExtent: real := 6.0

  /** The plane's normal: the transposed upper 3x3 block of the world transform
      applied to (0, -1, 0), which is the negated second row of that block. */
  function Normal(world: Mat4): (n: Vec3)
    ensures n == Vec3(-world.x.y, -world.y.y, -world.z.y)
  {
    TransposeApply(world, Vec3(0.0, -1.0, 0.0))
  }

  predicate Facing(world: Mat4, ray: Ray) {
    Dot(Normal(world), ray.direction) > FacingEpsilon
  }

  predicate OnPlane(world: Mat4, p: Vec3) {
    Dot(Sub(p, Translation(world)), Normal(world)) == 0.0
  }

  predicate InsidePatch(world: Mat4, p: Vec3) {
    var l := Sub(p, Translation(world));
    Abs(l.x) < HalfExtent && Abs(l.y) < HalfExtent && Abs(l.z) < HalfExtent
  }

  function Intersect(world: Mat4, ray: Ray): (r: Option<SurfaceHit>)
    ensures r.Some? ==> Facing(world, ray)
    ensures r.Some? ==> 0.0 <= r.value.distance && r.value.normal == Normal(world)
    ensures r.Some? ==> InsidePatch(world, PointAt(ray, r.value.distance))
  {
    var normal := Normal(world);
    var denom := Dot(normal, ray.direction);
    if denom > FacingEpsilon then
      var origin := Translation(world);
      var v := Scale(Sub(ray.origin, origin), -1.0);
      var distance := Dot(v, normal) / denom;
      if distance >= 0.0 then
        var hitPoint := PointAt(ray, distance);
        var l := Sub(hitPoint, origin);
        if Abs(l.x) < HalfExtent && Abs(l.y) < HalfExtent && Abs(l.z) < HalfExtent then
          Some(SurfaceHit(distance, normal))
        else None
      else None
    else None
  }

  /** Along a ray, the signed offset from a plane grows linearly with the parameter. */
  lemma OffsetAlongRay(ray: Ray, o: Vec3, n: Vec3, t: real)
    ensures Dot(Sub(PointAt(ray, t), o), n) == Dot(Sub(ray.origin, o), n) + t * Dot(n, ray.direction)
  {
  }

  lemma LinearRoot(a: real, den: real, t: real)
    requires den != 0.0
    ensures a + t * den == 0.0 <==> t == -a / den
  {
    if a + t * den == 0.0 {
      assert t * den == -a;
    }
  }

  /** The plane test reports parameter `t` exactly when the ray faces the plane,
      `t` is not behind the origin, and the point at `t` lies on the plane inside
      the square patch; the reported normal is then `Normal(world)`. */
  lemma {:induction false} IntersectIff(world: Mat4, ray: Ray, t: real)
    ensures Intersect(world, ray) == Some(SurfaceHit(t, Normal(world))) <==>
      && Facing(world, ray)
      && 0.0 <= t
      && OnPlane(world, PointAt(ray, t))
      && InsidePatch(world, PointAt(ray, t))
  {
    var n := Normal(world);
    var o := Translation(world);
    var den := Dot(n, ray.direction);
    var a := Dot(Sub(ray.origin, o), n);
    OffsetAlongRay(ray, o, n, t);
    assert Dot(Scale(Sub(ray.origin, o), -1.0), n) == -a;
    if Facing(world, ray) {
      LinearRoot(a, den, t);
    }
  }

  /** Whatever the test reports lies on the plane. */
  lemma HitIsOnPlane(world: Mat4, ray: Ray)
    ensures Intersect(world, ray).Some? ==>
      OnPlane(world, PointAt(ray, Intersect(world, ray).value.distance))
  {
    var r := Intersect(world, ray);
    if r.Some? {
      IntersectIff(world, ray, r.value.distance);
    }
  }
}

=== FILE: rendering.dfy ===
/** The render system of src/render_system.rs: the recursive closest-hit search
    `get_intersection_obj`, the shading step `get_color` and the pixel loop of
    `render`. The search is specified by `Closest`, a functional reading of the
    same recursion, which is then shown to pick the first nearest of the hits
    reported along a post-order walk of the subtree. */
module Rendering {
  import opened Geometry
  import opened SceneItems
  import opened Nodes
  import opened SceneGraph
  import Lights

  /** `f64::MAX`, the initial best distance. */
  const F64Max: real := 179769313486231570814527423731704356798070567525844996598917476803157260780028538760589558632766878171540458953514382464234321326889464182768467546703537516986049910576551282076245490090389328944075868508455133942304583236903222948165808559332123348274797826204144723168738177180919299881250404026184124858368.0

  /** `IntersectionObject`: distance along the ray, the node hit and its normal. */
  datatype Hit = Hit(distance: real, obj: nat, normal: Vec3)

  /** `RenderSystem`: only an output path, used for the file write. */
  datatype RenderSystem = RenderSystem(outputPath: string)

  /** The best distance so far: the sentinel while nothing has been found. */
  function CurrentDistance(cur: Option<Hit>): real {
    if cur.None? then F64Max else cur.value.distance
  }

  /** A node's own test, as a candidate result naming that node. */
  function OwnHit(m: Numerics, nodes: seq<Node>, ray: Ray, i: nat): (h: Option<Hit>)
    requires i < |nodes|
    ensures h.Some? ==> h.value.obj == i
    ensures h.None? <==> Nodes.Intersect(m, nodes[i], ray).None?
    ensures h.Some? ==> h.value.distance == Nodes.Intersect(m, nodes[i], ray).value.distance
    ensures h.Some? ==> h.value.normal == Nodes.Intersect(m, nodes[i], ray).value.normal
  {
    match Nodes.Intersect(m, nodes[i], ray)
    case None => None
    case Some(s) => Some(Hit(s.distance, i, s.normal))
  }

  /** Merging a child's result into the current best (render_system.rs:64-81):
      the first result is taken as it is, a later one only when strictly closer. */
  function TakeChild(cur: Option<Hit>, x: Option<Hit>): (r: Option<Hit>)
    ensures r == cur || r == x
    ensures x.Some? && (cur.None? || x.value.distance < cur.value.distance) ==> r == x
    ensures x.None? || (cur.Some? && cur.value.distance <= x.value.distance) ==> r == cur
  {
    match x
    case None => cur
    case Some(h) =>
      if cur.Some? then (if h.distance < CurrentDistance(cur) then x else cur)
      else x
  }

  /** Testing a candidate against the current best with a strict `<`
      (render_system.rs:84-95 for the node's own hit). */
  function Step(cur: Option<Hit>, h: Option<Hit>): (r: Option<Hit>)
    ensures r == cur || r == h
  {
    if h.Some? && h.value.distance < CurrentDistance(cur) then h else cur
  }

  /** What `get_intersection_obj` returns for node `i`: the best of its children's
      results, then its own hit if strictly closer. */
  ghost function Closest(m: Numerics, nodes: seq<Node>, ray: Ray, i: nat, rank: seq<nat>): (r: Option<Hit>)
    requires Linked(nodes) && Ranked(nodes, rank) && i < |nodes|
    ensures r.Some? ==> r.value.obj < |nodes| && r.value.distance < F64Max
    decreases rank[i], 1
  {
    Step(ChildrenBest(m, nodes, ray, i, nodes[i].size, rank), OwnHit(m, nodes, ray, i))
  }

  /** The current best after the loop has examined children `0..k` of node `i`;
      a missing child is skipped. */
  ghost function ChildrenBest(m: Numerics, nodes: seq<Node>, ray: Ray, i: nat, k: nat, rank: seq<nat>): (r: Option<Hit>)
    requires Linked(nodes) && Ranked(nodes, rank) && i < |nodes| && k <= nodes[i].size
    ensures r.Some? ==> r.value.obj < |nodes| && r.value.distance < F64Max
    decreases rank[i], 0, k
  {
    if k == 0 then None
    else
      var prev := ChildrenBest(m, nodes, ray, i, k - 1, rank);
      match GetChild(nodes[i], k - 1)
      case None => prev
      case Some(c) => TakeChild(prev, Closest(m, nodes, ray, c, rank))
  }

  /** `get_intersection_obj`: a depth-first search over the subtree of `i`. */
  method GetIntersectionObj(m: Numerics, nodes: seq<Node>, ray: Ray, i: nat, ghost rank: seq<nat>)
    returns (r: Option<Hit>)
    requires Linked(nodes) && Ranked(nodes, rank) && i < |nodes|
    ensures r == Closest(m, nodes, ray, i, rank)
    decreases rank[i]
  {
    var curObj: Option<Hit> := None;
    var curDistance: real := F64Max;
    var size := GetSize(nodes[i]);
    for k := 0 to size
      invariant curObj == ChildrenBest(m, nodes, ray, i, k, rank)
      invariant curDistance == CurrentDistance(curObj)
    {
      var child := GetChild(nodes[i], k);
      if child.None? {
        continue;
      }
      var x := GetIntersectionObj(m, nodes, ray, child.value, rank);
      match x {
        case None =>
        case Some(h) =>
          if curObj.Some? {
            if h.distance < curDistance {
              curDistance := h.distance;
              curObj := x;
            }
          } else {
            curDistance := h.distance;
            curObj := x;
          }
      }
    }
    var own := Nodes.Intersect(m, nodes[i], ray);
    if own.None? {
      return curObj;
    }
    if own.value.distance < curDistance {
      curObj := Some(Hit(own.value.distance, i, own.value.normal));
    }
    return curObj;
  }

  // ---------------------------------------------------------------------------
  // The specification: first nearest hit along a post-order walk.

  /** The nodes of the subtree of `i` in the order the search meets their own
      tests: each child's subtree in index order, then `i` itself. */
  ghost function VisitOrder(nodes: seq<Node>, i: nat, rank: seq<nat>): (order: seq<nat>)
    requires Linked(nodes) && Ranked(nodes, rank) && i < |nodes|
    ensures 0 < |order| && order[|order| - 1] == i
    ensures forall j :: 0 <= j < |order| ==> order[j] < |nodes|
    decreases rank[i], 1
  {
    ChildrenOrder(nodes, i, nodes[i].size, rank) + [i]
  }

  ghost function ChildrenOrder(nodes: seq<Node>, i: nat, k: nat, rank: seq<nat>): (order: seq<nat>)
    requires Linked(nodes) && Ranked(nodes, rank) && i < |nodes| && k <= nodes[i].size
    ensures forall j :: 0 <= j < |order| ==> order[j] < |nodes|
    decreases rank[i], 0, k
  {
    if k == 0 then []
    else
      var prev := ChildrenOrder(nodes, i, k - 1, rank);
      match GetChild(nodes[i], k - 1)
      case None => prev
      case Some(c) => prev + VisitOrder(nodes, c, rank)
  }

  /** The own-test results of the nodes of `order`, in that order. */
  function Hits(m: Numerics, nodes: seq<Node>, ray: Ray, order: seq<nat>): (hs: seq<Option<Hit>>)
    requires forall j :: 0 <= j < |order| ==> order[j] < |nodes|
    ensures |hs| == |order|
    ensures forall j :: 0 <= j < |order| ==> hs[j] == OwnHit(m, nodes, ray, order[j])
  {
    seq(|order|, j requires 0 <= j < |order| => OwnHit(m, nodes, ray, order[j]))
  }

  /** Scanning candidates left to right from `start`, keeping a candidate only
      when it is strictly closer than the best so far. */
  function Pick(start: Option<Hit>, hs: seq<Option<Hit>>): Option<Hit> {
    if |hs| == 0 then start else Step(Pick(start, hs[..|hs| - 1]), hs[|hs| - 1])
  }

  function FirstNearest(hs: seq<Option<Hit>>): Option<Hit> {
    Pick(None, hs)
  }

  /** `r` is the earliest of the candidates with the smallest distance below the
      sentinel, or nothing when no candidate is below it. */
  ghost predicate IsFirstNearest(hs: seq<Option<Hit>>, r: Option<Hit>) {
    && (r.None? <==> forall j :: 0 <= j < |hs| && hs[j].Some? ==> F64Max <= hs[j].value.distance)
    && (r.Some? ==>
          exists j :: 0 <= j < |hs| && hs[j] == r && r.value.distance < F64Max
            && (forall k :: 0 <= k < |hs| && hs[k].Some? ==> r.value.distance <= hs[k].value.distance)
            && (forall k :: 0 <= k < j && hs[k].Some? ==> r.value.distance < hs[k].value.distance))
  }

  lemma {:induction false} FirstNearestIsFirstNearest(hs: seq<Option<Hit>>)
    ensures IsFirstNearest(hs, FirstNearest(hs))
  {
    if |hs| == 0 {
      return;
    }
    var init := hs[..|hs| - 1];
    var last := hs[|hs| - 1];
    FirstNearestIsFirstNearest(init);
    var prev := FirstNearest(init);
    var r := FirstNearest(hs);
    assert r == Step(prev, last);
    assert forall j :: 0 <= j < |init| ==> init[j] == hs[j];
    if last.Some? && last.value.distance < CurrentDistance(prev) {
      assert r == last;
      var n := |hs| - 1;
      assert hs[n] == r && r.value.distance < F64Max;
      assert forall k :: 0 <= k < n && hs[k].Some? ==> r.value.distance < hs[k].value.distance by {
        if prev.Some? {
          var j :| 0 <= j < |init| && init[j] == prev
            && (forall k :: 0 <= k < |init| && init[k].Some? ==> prev.value.distance <= init[k].value.distance);
        }
      }
    } else {
      assert r == prev;
      if prev.Some? {
        var j :| 0 <= j < |init| && init[j] == prev && prev.value.distance < F64Max
          && (forall k :: 0 <= k < |init| && init[k].Some? ==> prev.value.distance <= init[k].value.distance)
          && (forall k :: 0 <= k < j && init[k].Some? ==> prev.value.distance < init[k].value.distance);
        assert hs[j] == r;
      }
    }
  }

  /** The specification pins the result down: there is only one first nearest. */
  lemma FirstNearestUnique(hs: seq<Option<Hit>>, r1: Option<Hit>, r2: Option<Hit>)
    requires IsFirstNearest(hs, r1) && IsFirstNearest(hs, r2)
    ensures r1 == r2
  {
    if r1.Some? && r2.Some? {
      var j1 :| 0 <= j1 < |hs| && hs[j1] == r1
        && (forall k :: 0 <= k < |hs| && hs[k].Some? ==> r1.value.distance <= hs[k].value.distance)
        && (forall k :: 0 <= k < j1 && hs[k].Some? ==> r1.value.distance < hs[k].value.distance);
      var j2 :| 0 <= j2 < |hs| && hs[j2] == r2
        && (forall k :: 0 <= k < |hs| && hs[k].Some? ==> r2.value.distance <= hs[k].value.distance)
        && (forall k :: 0 <= k < j2 && hs[k].Some? ==> r2.value.distance < hs[k].value.distance);
    }
  }

  lemma {:induction false} PickAppend(start: Option<Hit>, a: seq<Option<Hit>>, b: seq<Option<Hit>>)
    ensures Pick(start, a + b) == Pick(Pick(start, a), b)
    decreases |b|
  {
    if |b| == 0 {
      assert a + b == a;
    } else {
      var b' := b[..|b| - 1];
      assert (a + b)[..|a + b| - 1] == a + b';
      assert (a + b)[|a + b| - 1] == b[|b| - 1];
      PickAppend(start, a, b');
    }
  }

  /** Scanning from a current best below the sentinel is the same as scanning
      from nothing and then merging the outcome as a child's result. */
  lemma {:induction false} PickFromCurrent(cur: Option<Hit>, b: seq<Option<Hit>>)
    requires cur.Some? ==> cur.value.distance < F64Max
    ensures Pick(cur, b) == TakeChild(cur, Pick(None, b))
    ensures Pick(None, b).Some? ==> Pick(None, b).value.distance < F64Max
    decreases |b|
  {
    if |b| != 0 {
      PickFromCurrent(cur, b[..|b| - 1]);
    }
  }

  /** The closest-hit recursion computes the first nearest of the hits met along
      the post-order walk, and so does every prefix of its child loop. */
  lemma {:induction false} ClosestIsFirstNearest(m: Numerics, nodes: seq<Node>, ray: Ray, i: nat, rank: seq<nat>)
    requires Linked(nodes) && Ranked(nodes, rank) && i < |nodes|
    ensures Closest(m, nodes, ray, i, rank) == FirstNearest(Hits(m, nodes, ray, VisitOrder(nodes, i, rank)))
    decreases rank[i], 1
  {
    var co := ChildrenOrder(nodes, i, nodes[i].size, rank);
    ChildrenBestIsFirstNearest(m, nodes, ray, i, nodes[i].size, rank);
    var order := VisitOrder(nodes, i, rank);
    var hs := Hits(m, nodes, ray, order);
    assert hs[..|hs| - 1] == Hits(m, nodes, ray, co);
  }

  lemma {:induction false} ChildrenBestIsFirstNearest(m: Numerics, nodes: seq<Node>, ray: Ray, i: nat, k: nat, rank: seq<nat>)
    requires Linked(nodes) && Ranked(nodes, rank) && i < |nodes| && k <= nodes[i].size
    ensures ChildrenBest(m, nodes, ray, i, k, rank) == FirstNearest(Hits(m, nodes, ray, ChildrenOrder(nodes, i, k, rank)))
    decreases rank[i], 0, k
  {
    if k == 0 {
      return;
    }
    ChildrenBestIsFirstNearest(m, nodes, ray, i, k - 1, rank);
    var c := nodes[i].childs[k - 1];
    var prevOrder := ChildrenOrder(nodes, i, k - 1, rank);
    var sub := VisitOrder(nodes, c, rank);
    ClosestIsFirstNearest(m, nodes, ray, c, rank);
    var ha := Hits(m, nodes, ray, prevOrder);
    var hb := Hits(m, nodes, ray, sub);
    assert Hits(m, nodes, ray, prevOrder + sub) == ha + hb;
    PickFromCurrent(FirstNearest(ha), hb);
    PickAppend(None, ha, hb);
  }

  /** The search finds the earliest-visited of the nearest hits in the subtree:
      nothing exactly when no node of the subtree reports a hit below `f64::MAX`,
      otherwise a hit no farther than any reported hit, ties going to the node
      visited first (children in index order, the node itself last). */
  lemma SearchFindsFirstNearest(m: Numerics, nodes: seq<Node>, ray: Ray, i: nat, rank: seq<nat>)
    requires Linked(nodes) && Ranked(nodes, rank) && i < |nodes|
    ensures IsFirstNearest(Hits(m, nodes, ray, VisitOrder(nodes, i, rank)), Closest(m, nodes, ray, i, rank))
  {
    ClosestIsFirstNearest(m, nodes, ray, i, rank);
    FirstNearestIsFirstNearest(Hits(m, nodes, ray, VisitOrder(nodes, i, rank)));
  }

  // ---------------------------------------------------------------------------
  // Shading (`get_color`).

  /** The point the shading starts from: 0.01 short of the hit along the ray. */
  function ShadePoint(ray: Ray, hit: Hit): (p: Vec3)
    ensures Sub(PointAt(ray, hit.distance), p) == Scale(ray.direction, 0.01)
  {
    PointAt(ray, hit.distance - 0.01)
  }

  /** `light_power`: the clamped cosine times the light's intensity. It is
      computed but, as in the source, never used for the colour. */
  function LightPower(normal: Vec3, toLight: Vec3, intensity: Option<real>): (p: Option<real>)
    ensures p.Some? <==> intensity.Some?
    ensures p.Some? && 0.0 <= intensity.value ==> 0.0 <= p.value
  {
    var cosine := Dot(normal, toLight);
    var clamped := if cosine < 0.0 then 0.0 else cosine;
    match intensity
    case None => None
    case Some(v) => Some(clamped * v)
  }

  /** `in_light`: nothing in the way, or the first obstacle farther than the
      light. Nothing is farther than a directional light. */
  function Lit(shadow: Option<Hit>, reach: Lights.Reach): (b: bool)
    ensures shadow.None? ==> b
    ensures reach.Infinite? ==> (b <==> shadow.None?)
    ensures shadow.Some? && reach.Finite? ==> (b <==> reach.value < shadow.value.distance)
  {
    shadow.None? || (reach.Finite? && shadow.value.distance > reach.value)
  }

  /** The shadow ray of `get_color`: from the shade point, along the NEGATED
      normalised direction towards the light. */
  function ShadowRay(m: Numerics, lights: Node, ray: Ray, hit: Hit): (r: Ray)
    requires lights.kind.LightNode?
    ensures r.origin == PointAt(ray, hit.distance - 0.01)
    ensures r.direction == Neg(Normalize(m, Lights.DirectionFrom(m, lights.kind.light, lights.world, r.origin)))
  {
    var p := ShadePoint(ray, hit);
    Ray(p, Neg(Normalize(m, Lights.DirectionFrom(m, lights.kind.light, lights.world, p))))
  }

  /** Whether `get_color` finds the shade point in light: the search along the
      shadow ray, compared with the light's distance from the shade point. */
  ghost function InLight(m: Numerics, nodes: seq<Node>, root: nat, lights: Node, ray: Ray, hit: Hit,
                         rank: seq<nat>): (b: bool)
    requires Linked(nodes) && Ranked(nodes, rank) && root < |nodes| && lights.kind.LightNode?
    ensures lights.kind.light.Directional? ==>
      (b <==> Closest(m, nodes, ShadowRay(m, lights, ray, hit), root, rank).None?)
  {
    Lit(Closest(m, nodes, ShadowRay(m, lights, ray, hit), root, rank),
        Lights.Distance(m, lights.kind.light, lights.world, ShadePoint(ray, hit)))
  }

  /** `get_color`: computes the shadow ray, traces it and decides `in_light`,
      then returns the hit object's own colour, clamped, whatever the light. */
  method GetColor(m: Numerics, pal: Palette, nodes: seq<Node>, root: nat, lights: Node, ray: Ray, hit: Hit,
                  ghost rank: seq<nat>)
    returns (c: Color, ghost inLight: bool)
    requires Linked(nodes) && Ranked(nodes, rank) && root < |nodes| && hit.obj < |nodes|
    requires lights.kind.LightNode?
    ensures c == pal.clamp(ColorOf(nodes[hit.obj]))
    ensures inLight == InLight(m, nodes, root, lights, ray, hit, rank)
  {
    var light := lights.kind.light;
    var hitPoint := ShadePoint(ray, hit);
    var toLight := Normalize(m, Lights.DirectionFrom(m, light, lights.world, hitPoint));
    var power := LightPower(hit.normal, toLight, Lights.Intensity(m, light, lights.world, hitPoint));
    var shadowRay := Ray(hitPoint, Neg(toLight));
    var shadow := GetIntersectionObj(m, nodes, shadowRay, root, rank);
    inLight := Lit(shadow, Lights.Distance(m, light, lights.world, hitPoint));
    c := pal.clamp(ColorOf(nodes[hit.obj]));
  }

  /** With the first nearest hit as the shadow test's obstacle, `in_light`
      holds exactly when every candidate below the sentinel lies strictly
      beyond the light. */
  lemma LitIffAllBeyond(hs: seq<Option<Hit>>, r: Option<Hit>, reach: Lights.Reach)
    requires IsFirstNearest(hs, r)
    ensures Lit(r, reach) <==>
      forall j :: 0 <= j < |hs| && hs[j].Some? && hs[j].value.distance < F64Max ==>
        reach.Finite? && hs[j].value.distance > reach.value
  {
    if r.Some? {
      var j :| 0 <= j < |hs| && hs[j] == r && r.value.distance < F64Max
        && (forall k :: 0 <= k < |hs| && hs[k].Some? ==> r.value.distance <= hs[k].value.distance);
      if !Lit(r, reach) {
        assert hs[j].Some? && hs[j].value.distance < F64Max;
      }
    }
  }

  /** The shade point is lit exactly when every hit reported along the shadow
      ray below the sentinel lies strictly beyond the light; for a directional
      light, when there is no such hit at all. */
  lemma LitIffNoOccluder(m: Numerics, nodes: seq<Node>, root: nat, lights: Node, ray: Ray, hit: Hit,
                         rank: seq<nat>)
    requires Linked(nodes) && Ranked(nodes, rank) && root < |nodes| && lights.kind.LightNode?
    ensures var hs := Hits(m, nodes, ShadowRay(m, lights, ray, hit), VisitOrder(nodes, root, rank));
      var reach := Lights.Distance(m, lights.kind.light, lights.world, ShadePoint(ray, hit));
      InLight(m, nodes, root, lights, ray, hit, rank) <==>
        forall j :: 0 <= j < |hs| && hs[j].Some? && hs[j].value.distance < F64Max ==>
          reach.Finite? && hs[j].value.distance > reach.value
  {
    var shadowRay := ShadowRay(m, lights, ray, hit);
    var reach := Lights.Distance(m, lights.kind.light, lights.world, ShadePoint(ray, hit));
    var hs := Hits(m, nodes, shadowRay, VisitOrder(nodes, root, rank));
    var r := Closest(m, nodes, shadowRay, root, rank);
    assert InLight(m, nodes, root, lights, ray, hit, rank) == Lit(r, reach);
    SearchFindsFirstNearest(m, nodes, shadowRay, root, rank);
    LitIffAllBeyond(hs, r, reach);
    assert hs == Hits(m, nodes, ShadowRay(m, lights, ray, hit), VisitOrder(nodes, root, rank));
    assert InLight(m, nodes, root, lights, ray, hit, rank) <==>
      forall j :: 0 <= j < |hs| && hs[j].Some? && hs[j].value.distance < F64Max ==>
        reach.Finite? && hs[j].value.distance > reach.value;
  }

  // ---------------------------------------------------------------------------
  // The pixel loop (`render`).

  /** The background written where nothing is hit. */
  const Background: Rgba := Rgba(135, 206, 255, 0)

  /** A colour written as a pixel: the three channels, alpha 0. */
  function ColorPixel(pal: Palette, c: Color): Rgba {
    Rgba(pal.channel(c.red), pal.channel(c.green), pal.channel(c.blue), 0)
  }

  /** `usize as u32`: the value modulo 2^32. */
  function AsU32(n: nat): (r: nat)
    ensures r < 0x1_0000_0000 && (n < 0x1_0000_0000 ==> r == n)
  {
    n % 0x1_0000_0000
  }

  /** The pixel at (x, y): the clamped colour of the object the primary ray hits
      first, or the background. */
  ghost function PixelAt(m: Numerics, pal: Palette, nodes: seq<Node>, root: nat, x: nat, y: nat,
                         width: nat, height: nat, rank: seq<nat>): (px: Rgba)
    requires Linked(nodes) && Ranked(nodes, rank) && root < |nodes| && 0 < width && 0 < height
    ensures px.a == 0
    ensures Closest(m, nodes, CreatePrime(m, x, y, width, height), root, rank).None? ==> px == Background
  {
    match Closest(m, nodes, CreatePrime(m, x, y, width, height), root, rank)
    case None => Background
    case Some(a) => ColorPixel(pal, pal.clamp(ColorOf(nodes[a.obj])))
  }

  /** `render`: one primary ray per pixel, column by column. The scene's root
      index and its light are passed in; the camera supplies the image size. */
  method Render(rs: RenderSystem, m: Numerics, pal: Palette, nodes: seq<Node>, root: nat, lights: Node,
                camera: Node, ghost rank: seq<nat>)
    returns (image: array2<Rgba>)
    requires Linked(nodes) && Ranked(nodes, rank) && root < |nodes|
    requires lights.kind.LightNode? && camera.kind.CameraNode?
    ensures fresh(image)
    ensures image.Length0 == AsU32(camera.kind.imageWidth) && image.Length1 == AsU32(camera.kind.imageHeight)
    ensures forall x, y :: 0 <= x < image.Length0 && 0 <= y < image.Length1 ==>
      image[x, y] == PixelAt(m, pal, nodes, root, x, y, image.Length0, image.Length1, rank)
  {
    var width := AsU32(camera.kind.imageWidth);
    var height := AsU32(camera.kind.imageHeight);
    image := new Rgba[width, height]((_, _) => Rgba(0, 0, 0, 255));
    for x := 0 to width
      invariant forall i, j :: 0 <= i < x && 0 <= j < height ==>
        image[i, j] == PixelAt(m, pal, nodes, root, i, j, width, height, rank)
    {
      for y := 0 to height
        invariant forall i, j :: 0 <= i < x && 0 <= j < height ==>
          image[i, j] == PixelAt(m, pal, nodes, root, i, j, width, height, rank)
        invariant forall j :: 0 <= j < y ==>
          image[x, j] == PixelAt(m, pal, nodes, root, x, j, width, height, rank)
      {
        var ray := CreatePrime(m, x, y, width, height);
        var found := GetIntersectionObj(m, nodes, ray, root, rank);
        match found {
          case None =>
            image[x, y] := Background;
          case Some(a) =>
            var c, _ := GetColor(m, pal, nodes, root, lights, ray, a, rank);
            image[x, y] := ColorPixel(pal, c);
        }
      }
    }
  }

  /** A pixel shows the background exactly when no node of the scene reports a
      hit along its primary ray below the sentinel, and otherwise the colour of
      the first nearest such hit. */
  lemma {:induction false} PixelIsFirstNearest(m: Numerics, pal: Palette, nodes: seq<Node>, root: nat,
                                               x: nat, y: nat, width: nat, height: nat, rank: seq<nat>)
    requires Linked(nodes) && Ranked(nodes, rank) && root < |nodes| && 0 < width && 0 < height
    ensures var hs := Hits(m, nodes, CreatePrime(m, x, y, width, height), VisitOrder(nodes, root, rank));
      var r := FirstNearest(hs);
      && IsFirstNearest(hs, r)
      && (r.None? ==> PixelAt(m, pal, nodes, root, x, y, width, height, rank) == Background)
      && (r.Some? ==> PixelAt(m, pal, nodes, root, x, y, width, height, rank)
                        == ColorPixel(pal, pal.clamp(ColorOf(nodes[r.value.obj]))))
  {
    var ray := CreatePrime(m, x, y, width, height);
    ClosestIsFirstNearest(m, nodes, ray, root, rank);
    FirstNearestIsFirstNearest(Hits(m, nodes, ray, VisitOrder(nodes, root, rank)));
  }
}

=== FILE: scene.dfy ===
/** `Scene` (src/scene.rs): the root of the node tree, a name, the light and the
    render system. The root is an index into the scene graph's arena. */
module Scenes {
  import opened Geometry
  import opened Nodes
  import Lights
  import Rendering
  import SceneItems

  class Scene {
    var root: nat
    var name: string
    var lights: Node
    var renderer: Rendering.RenderSystem

    /** The light slot always holds a light, and the renderer writes to "output.png". */
    ghost predicate Valid()
      reads this
    {
      lights.kind.LightNode? && renderer == Rendering.RenderSystem("output.png")
    }

    /** `Scene::new`: the camera argument is not stored, and the light starts as
        the dark `off_light`. */
    constructor(name: string, root: nat, camera: Node)
      requires camera.kind.CameraNode?
      ensures Valid()
      ensures this.root == root && this.name == name && lights == OffLight()
    {
      this.root := root;
      this.name := name;
      lights := OffLight();
      renderer := Rendering.RenderSystem("output.png");
    }

    /** `add_root`: only the root changes. */
    method AddRoot(node: nat)
      modifies this
      ensures root == node
      ensures name == old(name) && lights == old(lights) && renderer == old(renderer)
      ensures old(Valid()) ==> Valid()
    {
      root := node;
    }

    /** `get_renderer`: the stored render system, which writes to "output.png". */
    function GetRenderer(): (r: Rendering.RenderSystem)
      reads this
      requires Valid()
      ensures r == renderer && r.outputPath == "output.png"
    {
      renderer
    }
  }

  /** The light a new scene starts with contributes nothing: zero intensity at
      every point, black, shining along +z so the direction towards it is -z,
      and infinitely far away. */
  lemma OffLightIsDark(m: Numerics, p: Vec3)
    ensures var l := OffLight();
      && Lights.Intensity(m, l.kind.light, l.world, p) == Some(0.0)
      && Lights.LightColor(l.kind.light) == SceneItems.Color(0.0, 0.0, 0.0)
      && Lights.DirectionFrom(m, l.kind.light, l.world, p) == Vec3(0.0, 0.0, -1.0)
      && Lights.Distance(m, l.kind.light, l.world, p) == Lights.Infinite
  {
    var l := OffLight();
    Lights.DirectionalIgnoresHitPoint(m, l.kind.light, l.world, p, p);
  }
}

=== FILE: scene_graph.dfy ===
/** The scene graph: every node lives in one arena and refers to its children by
    index. This stands for the `Rc<RefCell<Node>>` links of the source; adding a
    child mutates the parent (and, for some parent kinds, the child) in place. */
module SceneGraph {
  import opened Geometry
  import opened Nodes

  /** Every node's counter matches its child list and every child index names a
      node of the arena. */
  ghost predicate Linked(nodes: seq<Node>) {
    forall i :: 0 <= i < |nodes| ==>
      Consistent(nodes[i]) && forall j :: 0 <= j < |nodes[i].childs| ==> nodes[i].childs[j] < |nodes|
  }

  /** No node has a parent link: nothing in the source ever upgrades `Weak::new()`. */
  ghost predicate Orphans(nodes: seq<Node>) {
    forall i :: 0 <= i < |nodes| ==> GetParent(nodes[i]).None?
  }

  /** A witness that the child links form no cycle: every child ranks strictly
      below its parent. The source never checks this; a cycle would make the
      closest-hit recursion run forever. */
  ghost predicate Ranked(nodes: seq<Node>, rank: seq<nat>) {
    && |rank| == |nodes|
    && forall i, j :: 0 <= i < |nodes| && 0 <= j < |nodes[i].childs| && nodes[i].childs[j] < |nodes| ==>
         rank[nodes[i].childs[j]] < rank[i]
  }

  /** When `add_child(p, c)` may be called: a re-basing parent cannot take
      itself as child (the `RefCell` is already mutably borrowed and the borrow
      of the child panics), and a plane child must stay invertible. */
  predicate CanAttach(nodes: seq<Node>, p: nat, c: nat) {
    && p < |nodes| && c < |nodes|
    && (PropagatesTransform(nodes[p].kind) ==> p != c && CanRebase(nodes[c], nodes[p].world))
  }

  /** The arena after `nodes[p].add_child(nodes[c])`. */
  function Attach(nodes: seq<Node>, p: nat, c: nat): (r: seq<Node>)
    requires CanAttach(nodes, p, c) && Consistent(nodes[p])
    ensures |r| == |nodes|
  {
    var rebased :=
      if PropagatesTransform(nodes[p].kind) then nodes[c := SetWorldTransform(nodes[c], nodes[p].world)]
      else nodes;
    rebased[p := WithChild(rebased[p], c)]
  }

  class Arena {
    var nodes: seq<Node>

    ghost predicate Valid()
      reads this
    {
      Linked(nodes) && Orphans(nodes)
    }

    constructor()
      ensures Valid() && nodes == []
    {
      nodes := [];
    }

    /** Allocates a freshly constructed node and returns its index. */
    method Insert(n: Node) returns (i: nat)
      requires Valid() && n.size == 0 && n.childs == [] && n.parent.None?
      modifies this
      ensures Valid() && i == |old(nodes)| && nodes == old(nodes) + [n]
    {
      i := |nodes|;
      nodes := nodes + [n];
    }

    /** `add_child`: the size counter of `p` goes up, a re-basing parent sets the
      child's world transform from its own, and the child index is appended. */
    method AddChild(p: nat, c: nat)
      requires Valid() && CanAttach(nodes, p, c)
      modifies this
      ensures Valid() && nodes == Attach(old(nodes), p, c)
    {
      var parent := nodes[p];
      nodes := nodes[p := parent.(size := parent.size + 1)];
      if PropagatesTransform(parent.kind) {
        nodes := nodes[c := Nodes.SetWorldTransform(nodes[c], parent.world)];
      }
      nodes := nodes[p := nodes[p].(childs := nodes[p].childs + [c])];
      assert forall i :: 0 <= i < |nodes| ==> nodes[i] == Attach(old(nodes), p, c)[i];
    }

    /** `set_world_transform` on node `i`. */
    method SetWorldTransform(i: nat, t: Mat4)
      requires Valid() && i < |nodes| && CanRebase(nodes[i], t)
      modifies this
      ensures Valid() && nodes == old(nodes)[i := Nodes.SetWorldTransform(old(nodes)[i], t)]
    {
      nodes := nodes[i := Nodes.SetWorldTransform(nodes[i], t)];
    }
  }

  /** Attaching keeps the arena linked and every node without a parent link. */
  lemma {:induction false} AttachKeepsValid(nodes: seq<Node>, p: nat, c: nat)
    requires Linked(nodes) && Orphans(nodes) && CanAttach(nodes, p, c)
    ensures Linked(Attach(nodes, p, c)) && Orphans(Attach(nodes, p, c))
  {
    var r := Attach(nodes, p, c);
    forall i | 0 <= i < |r|
      ensures Consistent(r[i]) && forall j :: 0 <= j < |r[i].childs| ==> r[i].childs[j] < |r|
    {
      if i == p {
        assert r[i].childs == nodes[i].childs + [c];
      } else if i == c {
        assert r[i].childs == nodes[i].childs;
      } else {
        assert r[i] == nodes[i];
      }
    }
  }

  /** The parent's counter grows by one, the new child is found at the old size,
      and the children it had keep their positions. */
  lemma AttachGrowsParent(nodes: seq<Node>, p: nat, c: nat)
    requires Linked(nodes) && CanAttach(nodes, p, c)
    ensures var q := Attach(nodes, p, c)[p];
      && Consistent(q) && GetSize(q) == GetSize(nodes[p]) + 1
      && GetChild(q, nodes[p].size) == Some(c)
      && (forall i :: 0 <= i < nodes[p].size ==> GetChild(q, i) == GetChild(nodes[p], i))
      && q.(size := nodes[p].size, childs := nodes[p].childs) == nodes[p]
  {
  }

  /** A `Node3D` or sphere parent leaves the child untouched. */
  lemma AttachToGroupKeepsChild(nodes: seq<Node>, p: nat, c: nat)
    requires Linked(nodes) && CanAttach(nodes, p, c) && !PropagatesTransform(nodes[p].kind)
    ensures p != c ==> Attach(nodes, p, c)[c] == nodes[c]
  {
  }

  /** A plane, camera or light parent hands its world transform to the child: a
      `Node3D` child takes it as it is, a sphere child ignores it, and any other
      child composes it with its own frame. Nothing else about the child changes. */
  lemma AttachRebasesChild(nodes: seq<Node>, p: nat, c: nat)
    requires Linked(nodes) && CanAttach(nodes, p, c) && PropagatesTransform(nodes[p].kind)
    ensures var child := Attach(nodes, p, c)[c];
      && child.(world := nodes[c].world) == nodes[c]
      && (nodes[c].kind.Node3D? ==> child.world == nodes[p].world)
      && (nodes[c].kind.SphereNode? ==> child.world == nodes[c].world)
      && (PropagatesTransform(nodes[c].kind) ==> child.world == Mul(nodes[p].world, nodes[c].frame))
  {
  }

  /** Re-basing is a one-level snapshot: every node other than the parent and
      the new child is left as it was, in particular the child's own children,
      whose world transforms are not recomputed. */
  lemma AttachIsOneLevel(nodes: seq<Node>, p: nat, c: nat, j: nat)
    requires Linked(nodes) && CanAttach(nodes, p, c) && j < |nodes| && j != p && j != c
    ensures Attach(nodes, p, c)[j] == nodes[j]
  {
  }

  /** Attaching a child that ranks below its parent keeps the arena acyclic. */
  lemma {:induction false} AttachKeepsRanked(nodes: seq<Node>, rank: seq<nat>, p: nat, c: nat)
    requires Linked(nodes) && Ranked(nodes, rank) && CanAttach(nodes, p, c) && rank[c] < rank[p]
    ensures Ranked(Attach(nodes, p, c), rank)
  {
    var r := Attach(nodes, p, c);
    forall i, j | 0 <= i < |r| && 0 <= j < |r[i].childs| && r[i].childs[j] < |r|
      ensures rank[r[i].childs[j]] < rank[i]
    {
      if i == p {
        assert r[i].childs == nodes[i].childs + [c];
        if j < |nodes[i].childs| {
          assert r[i].childs[j] == nodes[i].childs[j];
        }
      } else if i == c {
        assert r[i].childs == nodes[i].childs;
      } else {
        assert r[i] == nodes[i];
      }
    }
  }
}

=== FILE: scene_items.dfy ===
/** Colours, rays and primary-ray generation (src/scene_items.rs). */
module SceneItems {
  import opened Geometry

  /** `Color::new(r, g, b)` is this constructor: it stores its components unchanged. */
  datatype Color = Color(red: real, green: real, blue: real)

  type Byte = x: int | 0 <= x < 256

  datatype Rgba = Rgba(r: Byte, g: Byte, b: Byte, a: Byte)

  /** A ray: an origin point and a direction (normalised by its producers). */
  datatype Ray = Ray(origin: Vec3, direction: Vec3)

  /** What a node's own intersection test reports: the distance along the ray
      and the surface normal there (the `(f64, Vector3<f64>)` pair of `intersect`). */
  datatype SurfaceHit = SurfaceHit(distance: real, normal: Vec3)

  /** The point `origin + direction * t` of a ray. */
  function PointAt(ray: Ray, t: real): Vec3 {
    Add(ray.origin, Scale(ray.direction, t))
  }

  /** `Color::clamp` and `Color::red`/`green`/`blue` (colour component to 8-bit
      channel) are defined outside the modelled files; they are parameters. */
  datatype Palette = Palette(clamp: Color -> Color, channel: real -> Byte)

  /** Rust's `v as u8` on a float: truncation toward zero, saturated to 0..255. */
  function AsU8(v: real): (b: Byte)
    ensures v <= 0.0 ==> b == 0
    ensures 255.0 <= v ==> b == 255
    ensures 0.0 <= v < 256.0 ==> b as real <= v < b as real + 1.0
  {
    if v <= 0.0 then 0 else if 255.0 <= v then 255 else v.Floor
  }

  /** `Color::to_rgba`: every channel cast with `as u8`, alpha always opaque. */
  function ToRgba(c: Color): (p: Rgba)
    ensures p.a == 255
    ensures p.r == AsU8(c.red) && p.g == AsU8(c.green) && p.b == AsU8(c.blue)
  {
    Rgba(AsU8(c.red), AsU8(c.green), AsU8(c.blue), 255)
  }

  /** Horizontal sensor coordinate of pixel column `x` (scene_items.rs:35). */
  function SensorX(x: nat, width: nat): (s: real)
    requires 0 < width
    ensures x < width ==> -1.0 < s < 1.0
  {
    var q := (x as real + 0.5) / width as real;
    assert x < width ==> 0.0 < q < 1.0 by {
      if x < width { QuotientBelowOne(x as real + 0.5, width as real); }
    }
    q * 2.0 - 1.0
  }

  /** Vertical sensor coordinate of pixel row `y` (scene_items.rs:36); rows grow downwards. */
  function SensorY(y: nat, height: nat): (s: real)
    requires 0 < height
    ensures y < height ==> -1.0 < s < 1.0
  {
    var q := (y as real + 0.5) / height as real;
    assert y < height ==> 0.0 < q < 1.0 by {
      if y < height { QuotientBelowOne(y as real + 0.5, height as real); }
    }
    1.0 - q * 2.0
  }

  /** Columns mirrored about the image centre get negated sensor coordinates. */
  lemma SensorXMirror(x: nat, width: nat)
    requires x < width
    ensures SensorX(width - 1 - x, width) == -SensorX(x, width)
  {
    var w := width as real;
    var a := x as real + 0.5;
    assert (width - 1 - x) as real + 0.5 == w - a;
    QuotientSum(a, w - a, w);
  }

  /** Lower rows map to strictly smaller vertical sensor coordinates. */
  lemma SensorYDecreasing(y1: nat, y2: nat, height: nat)
    requires y1 < y2 && 0 < height
    ensures SensorY(y2, height) < SensorY(y1, height)
  {
    QuotientMono(y1 as real + 0.5, y2 as real + 0.5, height as real);
  }

  lemma QuotientBelowOne(n: real, d: real)
    requires 0.0 < n < d
    ensures 0.0 < n / d < 1.0
  {
    var q := n / d;
    if 1.0 <= q {
      assert false;
    }
  }

  lemma QuotientSum(a: real, b: real, d: real)
    requires d != 0.0
    ensures a / d + b / d == (a + b) / d
  {
  }

  lemma QuotientMono(a: real, b: real, d: real)
    requires a < b && 0.0 < d
    ensures a / d < b / d
  {
    var qa, qb := a / d, b / d;
    if qb <= qa {
      assert false;
    }
  }

  /** `Ray::create_prime`: the camera sits at the world origin and looks down -z;
      the direction is the normalised sensor point on the plane z = -1. */
  function CreatePrime(m: Numerics, x: nat, y: nat, width: nat, height: nat): (r: Ray)
    requires 0 < width && 0 < height
    ensures r.origin == Origin
    ensures r.direction == Normalize(m, Vec3(SensorX(x, width), SensorY(y, height), -1.0))
  {
    var sensorX := SensorX(x, width);
    var sensorY := SensorY(y, height);
    Ray(Vec3(0.0, 0.0, 0.0), Normalize(m, Vec3(sensorX, sensorY, -1.0)))
  }
}

=== FILE: sphere_geometry.dfy ===
/** Ray/sphere intersection of `SphereNode::intersect` (src/sphere_node.rs:57-82).
    The centre is the translation of the sphere's frame transform. */
module SphereGeometry {
  import opened Geometry
  import opened SceneItems

  /** Ray parameter of the point of the ray closest to `c`. */
  function Tca(ray: Ray, c: Vec3): real {
    Dot(Sub(c, ray.origin), ray.direction)
  }

  /** Squared distance from `c` to the line of the ray (for a unit direction). */
  function Miss2(ray: Ray, c: Vec3): real {
    var l := Sub(c, ray.origin);
    Dot(l, l) - Tca(ray, c) * Tca(ray, c)
  }

  /** Half the length of the chord the ray's line cuts through the sphere. */
  function HalfChord(m: Numerics, ray: Ray, c: Vec3, radius: real): real {
    Sqrt(m, radius * radius - Miss2(ray, c))
  }

  predicate OnSphere(p: Vec3, c: Vec3, radius: real) {
    Dot(Sub(p, c), Sub(p, c)) == radius * radius
  }

  /** The intersection test exactly as the source writes it: the offset is taken
      from the centre to the ray origin, the smaller of the two resulting roots is
      reported, and nothing rejects negative roots. */
  function IntersectAsWritten(m: Numerics, radius: real, frame: Mat4, ray: Ray): (r: Option<SurfaceHit>)
    ensures r.None? <==> Miss2(ray, Translation(frame)) > radius * radius
    ensures r.Some? ==>
      var adj := -Tca(ray, Translation(frame));
      var thc := HalfChord(m, ray, Translation(frame), radius);
      r.value.distance <= adj - thc && r.value.distance <= adj + thc &&
      (r.value.distance == adj - thc || r.value.distance == adj + thc)
  {
    var center := Translation(frame);
    var l := Sub(ray.origin, center);
    var adj := Dot(l, ray.direction);
    var d2 := Dot(l, l) - adj * adj;
    var radius2 := radius * radius;
    SubSwap(ray.origin, center, ray.direction);
    assert adj == -Tca(ray, center) && d2 == Miss2(ray, center);
    if d2 > radius2 then None
    else
      var thc := Sqrt(m, radius2 - d2);
      var t0 := adj - thc;
      var t1 := adj + thc;
      var distance := if t0 < t1 then t0 else t1;
      var hitPoint := PointAt(ray, -distance);
      Some(SurfaceHit(distance, Normalize(m, Sub(hitPoint, center))))
  }

  /** The evidently intended test: offset from the ray origin to the centre, both
      roots behind the origin rejected, the smaller non-negative root reported and
      the hit point taken at that distance along the ray. */
  function IntersectCorrected(m: Numerics, radius: real, frame: Mat4, ray: Ray): (r: Option<SurfaceHit>)
    ensures r.Some? ==> 0.0 <= r.value.distance
    ensures Miss2(ray, Translation(frame)) > radius * radius ==> r.None?
    ensures r.Some? ==>
      r.value.normal == Normalize(m, Sub(PointAt(ray, r.value.distance), Translation(frame)))
  {
    var center := Translation(frame);
    var tca := Tca(ray, center);
    if Miss2(ray, center) > radius * radius then None
    else
      var thc := HalfChord(m, ray, center, radius);
      var t0 := tca - thc;
      var t1 := tca + thc;
      if t0 < 0.0 && t1 < 0.0 then None
      else
        var distance := if t0 < 0.0 then t1 else if t1 < 0.0 then t0 else if t0 < t1 then t0 else t1;
        Some(SurfaceHit(distance, Normalize(m, Sub(PointAt(ray, distance), center))))
  }

  /** For a unit direction, the squared distance from the centre to the point at
      parameter `t` is a quadratic in `t`. */
  lemma DistanceAlongRay(ray: Ray, c: Vec3, t: real)
    requires Dot(ray.direction, ray.direction) == 1.0
    ensures var q := Sub(PointAt(ray, t), c);
      Dot(q, q) == (t - Tca(ray, c)) * (t - Tca(ray, c)) + Miss2(ray, c)
  {
    var d := ray.direction;
    var l := Sub(c, ray.origin);
    var q := Sub(PointAt(ray, t), c);
    assert q == Sub(Scale(d, t), l);
    assert Dot(q, q) == t * t * Dot(d, d) - 2.0 * t * Dot(l, d) + Dot(l, l);
  }

  /** The real solutions of `u * u == e`, given a non-negative square root `s` of `e`. */
  lemma SquareRoots(u: real, e: real, s: real)
    requires 0.0 <= s && s * s == e
    ensures u * u == e <==> (u == s || u == -s)
  {
    assert u * u - e == (u - s) * (u + s);
  }

  /** With a sound `sqrt` and a unit direction, the points of the ray on the
      sphere are exactly those at the two roots `tca - thc` and `tca + thc`. */
  lemma {:induction false} OnSphereIffRoot(m: Numerics, ray: Ray, c: Vec3, radius: real, t: real)
    requires SqrtSound(m) && Dot(ray.direction, ray.direction) == 1.0
    ensures OnSphere(PointAt(ray, t), c, radius) <==>
      Miss2(ray, c) <= radius * radius &&
      (t == Tca(ray, c) - HalfChord(m, ray, c, radius) || t == Tca(ray, c) + HalfChord(m, ray, c, radius))
  {
    DistanceAlongRay(ray, c, t);
    var tca, d2 := Tca(ray, c), Miss2(ray, c);
    var u := t - tca;
    var e := radius * radius - d2;
    assert OnSphere(PointAt(ray, t), c, radius) <==> u * u == e;
    if e < 0.0 {
      assert u * u >= 0.0;
    } else {
      var thc := HalfChord(m, ray, c, radius);
      assert thc == Sqrt(m, e);
      SquareRoots(u, e, thc);
    }
  }

  /** With a sound `sqrt` the corrected test keeps the near root when it is not
      behind the origin, falls back to the far root otherwise, and reports nothing
      when the line misses or both roots are behind the origin. */
  lemma CorrectedRoot(m: Numerics, radius: real, frame: Mat4, ray: Ray)
    requires SqrtSound(m)
    ensures var c := Translation(frame);
      var r := IntersectCorrected(m, radius, frame, ray);
      var tca, thc := Tca(ray, c), HalfChord(m, ray, c, radius);
      && (r.None? <==> Miss2(ray, c) > radius * radius || tca + thc < 0.0)
      && (r.Some? ==> r.value.distance == if 0.0 <= tca - thc then tca - thc else tca + thc)
  {
    var c := Translation(frame);
    if Miss2(ray, c) <= radius * radius {
      assert 0.0 <= HalfChord(m, ray, c, radius);
    }
  }

  /** The corrected test reports exactly the nearest point of the ray, at a
      non-negative parameter, that lies on the sphere, and nothing when there is
      no such point. */
  lemma {:induction false} CorrectedIsNearestHit(m: Numerics, radius: real, frame: Mat4, ray: Ray, t: real)
    requires SqrtSound(m) && Dot(ray.direction, ray.direction) == 1.0
    ensures var r := IntersectCorrected(m, radius, frame, ray);
      && (r.Some? ==> OnSphere(PointAt(ray, r.value.distance), Translation(frame), radius))
      && (0.0 <= t && OnSphere(PointAt(ray, t), Translation(frame), radius) ==>
            r.Some? && r.value.distance <= t)
  {
    var c := Translation(frame);
    var r := IntersectCorrected(m, radius, frame, ray);
    CorrectedRoot(m, radius, frame, ray);
    OnSphereIffRoot(m, ray, c, radius, t);
    if r.Some? {
      OnSphereIffRoot(m, ray, c, radius, r.value.distance);
    }
    if Miss2(ray, c) <= radius * radius {
      assert 0.0 <= HalfChord(m, ray, c, radius);
    }
  }

  /** What the as-written test reports is the NEGATED far root: the hit point it
      computes lies on the sphere at parameter `-distance = tca + thc`. */
  lemma {:induction false} AsWrittenNegatesFarRoot(m: Numerics, radius: real, frame: Mat4, ray: Ray)
    requires SqrtSound(m) && Dot(ray.direction, ray.direction) == 1.0
    ensures var r := IntersectAsWritten(m, radius, frame, ray);
      var c := Translation(frame);
      r.Some? ==>
        && r.value.distance == -(Tca(ray, c) + HalfChord(m, ray, c, radius))
        && OnSphere(PointAt(ray, -r.value.distance), c, radius)
  {
    var c := Translation(frame);
    var r := IntersectAsWritten(m, radius, frame, ray);
    if r.Some? {
      var thc := HalfChord(m, ray, c, radius);
      assert thc >= 0.0;
      OnSphereIffRoot(m, ray, c, radius, -r.value.distance);
    }
  }

  /** A unit sphere centred `z` units straight down a ray from the origin along -z. */
  lemma OnAxis(m: Numerics, z: real, ray: Ray, frame: Mat4)
    requires SqrtSound(m) && 1.0 < z
    requires ray == Ray(Origin, Vec3(0.0, 0.0, -1.0)) && frame == FromTranslation(Vec3(0.0, 0.0, -z))
    ensures && IntersectAsWritten(m, 1.0, frame, ray) ==
           Some(SurfaceHit(-(z + 1.0), Normalize(m, Vec3(0.0, 0.0, -1.0))))
      && IntersectCorrected(m, 1.0, frame, ray) ==
           Some(SurfaceHit(z - 1.0, Normalize(m, Vec3(0.0, 0.0, 1.0))))
  {
    var c := Vec3(0.0, 0.0, -z);
    assert Translation(FromTranslation(c)) == c;
    assert Tca(ray, c) == z;
    assert Miss2(ray, c) == 0.0;
    var s := Sqrt(m, 1.0);
    SquareRoots(1.0, 1.0, s);
    assert s == 1.0;
    assert Sqrt(m, 1.0 * 1.0 - Miss2(ray, c)) == 1.0;
    assert PointAt(ray, z + 1.0) == Vec3(0.0, 0.0, -(z + 1.0));
    assert PointAt(ray, z - 1.0) == Vec3(0.0, 0.0, -(z - 1.0));
    assert IntersectAsWritten(m, 1.0, FromTranslation(c), ray).value.distance == -(z + 1.0);
  }

  /** Two unit spheres straight down the ray, the nearer centred at `zNear`, the
      farther at `zFar` (for instance 5 and 10, where the as-written test reports
      -6 and -11 and the corrected one 4 and 9): as written the farther sphere
      reports the smaller distance, so a closest-hit search prefers it; the
      corrected test orders them by their true distance. */
  lemma AsWrittenPrefersFartherSphere(m: Numerics, zNear: real, zFar: real, ray: Ray, near: Mat4, far: Mat4)
    requires SqrtSound(m) && 1.0 < zNear < zFar
    requires ray == Ray(Origin, Vec3(0.0, 0.0, -1.0))
    requires near == FromTranslation(Vec3(0.0, 0.0, -zNear))
    requires far == FromTranslation(Vec3(0.0, 0.0, -zFar))
    ensures && IntersectAsWritten(m, 1.0, near, ray).Some?
      && IntersectAsWritten(m, 1.0, far, ray).Some?
      && IntersectAsWritten(m, 1.0, far, ray).value.distance
           < IntersectAsWritten(m, 1.0, near, ray).value.distance
      && IntersectCorrected(m, 1.0, near, ray).Some?
      && IntersectCorrected(m, 1.0, far, ray).Some?
      && IntersectCorrected(m, 1.0, near, ray).value.distance
           < IntersectCorrected(m, 1.0, far, ray).value.distance
  {
    OnAxis(m, zNear, ray, near);
    OnAxis(m, zFar, ray, far);
  }
}
